=== FILE: README.md ===
# Device-profile service of EdgeX core-metadata, modelled in Dafny

This project models the application service that manages device profiles in
the EdgeX core-metadata service. A device profile is a template for a class of
device: its name, manufacturer, model, labels and device resources, each with
a unit of measure. The service handles these operations:

- add;
- full update;
- basic-info patch;
- delete by name;
- lookup by name;
- five paged listings: all profiles by labels, by model, by manufacturer, by
  manufacturer and model, and the basic-info projection.

Each operation runs an ordered series of checks that return typed errors. It
writes to the store only after they pass. Once the write succeeds, it queues
one add, update or delete system event.

The model is functional. The store is an immutable snapshot (`ProfileStore.Store`).
The operations take three shapes:

- Add, update and delete are pure functions from the collaborators (`Env`),
  the current `State` (store plus outbox of queued events) and the request to
  a `Response` (result plus next state).
- The patch takes a `State` and the payload and returns a `Response`, but no
  `Env`: it consults no collaborator, neither the unit validator nor the
  capacity check.
- The listings take an `Env` and a `Store` and return a `Page`. The lookup
  by name and the in-use check take only a `Store` and return a `Result`.

Files:

- `errors.dfy`: error kinds, leaf and wrapped errors, `Option`, `Result`.
- `models.dfy`: profiles, basic info, the patch payload, device and
  provision-watcher references, system events, configuration.
- `store.dfy`: the backend as a snapshot. It holds profiles in listing order,
  device and watcher references, and the set of backend calls that currently fail.
- `sequences.dfy`: generic helpers: the first position where a predicate
  holds, filtering, and a clipped window.
- `uom.dfy`: unit-of-measure validation.
- `deviceprofile.dfy`: the service operations.
- `properties.dfy`: lemmas that relate several calls.

Collaborators the source does not show become parameters:

- The units-of-measure validator is `Env.unitValid`, a predicate on unit strings.
- `checkResourceCapacityByUpdateProfile` is `Env.capacityCheck`, a function of
  the store and the profile that returns an optional error.
- `utils.CheckCountRange` is `Env.countRange`, a function of (total, offset,
  limit) that returns (continue, optional error).
- The request context is reduced to an explicit correlation id.
- The generated id of a new profile is an explicit `freshId` argument.
- Each `go publish…` call is one event appended to the outbox.

The store's own behaviour is an assumption of the model, because the backend
is not part of it:

- insert refuses a name or an id already in use (DuplicateName);
- replace and delete locate the profile by name, and a miss is EntityDoesNotExist;
- replace keeps the stored id;
- a label filter selects profiles that carry any of the given labels, and no
  labels selects every profile;
- a page is the window `[offset, offset+limit)` clipped to the matches, and a
  negative limit has no upper bound;
- any backend call listed in `failing` returns a DatabaseError.

Two behaviours of the code are worth stating because a reader might expect
otherwise:

- Patches run no unit validation and no capacity check
  (deviceprofile.go:266-290). Add and update validate units; only update runs
  the capacity check. The model's patch does neither.
- When `CheckCountRange` says stop, the listing returns that check's own error,
  possibly none, with an empty page and the true total
  (deviceprofile.go:167-170). The model does the same (`StoppedPageIsEmpty`).

## Model

| member | source | states |
|---|---|---|
| UnitsOfMeasure.DeviceProfileUoMValidation | internal/core/metadata/application/deviceprofile.go:335-346 | There is no error exactly when validation is off or every resource's unit is accepted. Otherwise the error is ContractInvalid and names the first rejected resource in order. |
| UnitsOfMeasure.FirstInvalidUnit | internal/core/metadata/application/deviceprofile.go:338-342 | The loop stops at the first resource whose unit is rejected. Every earlier resource is accepted. There is none exactly when all units are accepted. |
| Errors.Wrap | internal/core/metadata/application/deviceprofile.go:35 | A wrapped error keeps the kind and the root cause of the error it wraps. |
| DeviceProfileService.AddDeviceProfile | internal/core/metadata/application/deviceprofile.go:29-54 | Success holds exactly when the units are acceptable and the store accepts the insert. Invalid units return the validator's ContractInvalid error, wrapped, which names the first rejected resource. An insert failure returns the store's error wrapped, kind and cause kept. Any failure leaves store and outbox unchanged. Success returns the store-assigned id, appends the stored profile, and queues exactly one Add event carrying it. |
| DeviceProfileService.UpdateDeviceProfile | internal/core/metadata/application/deviceprofile.go:58-93 | Invalid units return the validator's ContractInvalid error, wrapped, which names the first rejected resource; nothing changes. A capacity error, checked only when MaxResources > 0, is returned wrapped with nothing changed. A replace failure and a re-fetch failure each return the store's error wrapped. Success requires every gate plus a working replace and re-fetch. A failed re-fetch still leaves the write in place, with no event. Success queues one Update event carrying the re-fetched stored record. |
| DeviceProfileService.ReplacedIsFirstOfName | internal/core/metadata/application/deviceprofile.go:74-84 | After the replace, the re-fetch by the input's name finds the row that was just written. |
| DeviceProfileService.IsProfileInUse | internal/core/metadata/application/deviceprofile.go:95-102 | It returns true exactly when some device refers to the profile. A failing count is propagated as the store's DatabaseError, wrapped. |
| DeviceProfileService.DeviceProfileByName | internal/core/metadata/application/deviceprofile.go:105-116 | An empty name is refused ContractInvalid whatever the store holds. Otherwise it succeeds exactly when the store finds the name, and the result is the stored profile of that name. Any lookup failure returns the store's error wrapped. A miss is EntityDoesNotExist. |
| DeviceProfileService.DeleteDeviceProfileByName | internal/core/metadata/application/deviceprofile.go:119-157 | The gates run in this order: strict lock (ServiceLocked), empty name (ContractInvalid), lookup error (propagated), referencing device (StatusConflict), referencing provision watcher (StatusConflict). A failing device probe, provision-watcher probe or delete returns that store call's error wrapped. Any failure leaves the state unchanged. Success holds exactly when all gates and the delete pass. It removes the named row and queues one Delete event carrying the pre-deletion profile. |
| DeviceProfileService.ListPage | internal/core/metadata/application/deviceprofile.go:160-181 | A failing count gives an empty page and the store's error, wrapped. Otherwise the total is the store's count for the filter. If the range check says stop, the page is empty and the error is the range check's. Otherwise the page is the store's window of matches, or empty with the store's list error, wrapped. Every item is a stored profile matching the filter. |
| DeviceProfileService.AllDeviceProfiles | internal/core/metadata/application/deviceprofile.go:160-181 | The label listing. The total is the number of profiles the label filter selects. Every item is a stored profile carrying one of the labels. |
| DeviceProfileService.DeviceProfilesByModel | internal/core/metadata/application/deviceprofile.go:184-208 | An empty model is refused ContractInvalid before the store is consulted. Otherwise it is the shared listing on the model filter. Every item has that model. |
| DeviceProfileService.DeviceProfilesByManufacturer | internal/core/metadata/application/deviceprofile.go:211-235 | An empty manufacturer is refused ContractInvalid before the store is consulted. Otherwise it is the shared listing on the manufacturer filter. Every item has that manufacturer. |
| DeviceProfileService.DeviceProfilesByManufacturerAndModel | internal/core/metadata/application/deviceprofile.go:238-264 | The manufacturer is checked before the model, and each empty one gives its own ContractInvalid error. Otherwise it is the shared listing. Every item has both the manufacturer and the model. |
| DeviceProfileService.AllDeviceProfileBasicInfos | internal/core/metadata/application/deviceprofile.go:293-314 | The total and the error are those of the label listing. The page has one basic-info element per listed profile, in order. |
| DeviceProfileService.DeviceProfileByDto | internal/core/metadata/application/deviceprofile.go:316-333 | The target is looked up by id when the payload carries a non-empty id, otherwise by name. A non-empty id takes precedence: an id no stored profile has gives EntityDoesNotExist even when the name would resolve. A fetch error is propagated wrapped. A payload name that differs from the fetched record's name is refused ContractInvalid. Otherwise the result is the stored record, whose id is the payload's id, or whose name is the payload's name when no id is given. |
| DeviceProfileService.PatchDeviceProfileBasicInfo | internal/core/metadata/application/deviceprofile.go:266-290 | Resolution errors and a replace failure return the underlying error wrapped. Success holds exactly when resolution and the replace succeed. Any failure leaves the state unchanged. Success writes the merged record and queues one Update event carrying the merged record. |
| DeviceProfileProperties.InvalidUnitsRejected | internal/core/metadata/application/deviceprofile.go:33-66 | With validation on and one rejected unit, both add and update fail ContractInvalid with store and outbox unchanged. |
| DeviceProfileProperties.ValidationOffIgnoresValidator | internal/core/metadata/application/deviceprofile.go:335-336 | With validation off, add and update behave the same whatever the validator answers. |
| DeviceProfileProperties.AddThenFetch | internal/core/metadata/application/deviceprofile.go:39-53 | After a successful add, the profile can be fetched by its name and by the returned id. It equals the Add event's payload. |
| DeviceProfileProperties.AddPreservesWellFormed | internal/core/metadata/application/deviceprofile.go:39-42 | Adding keeps profile names and ids unique. |
| DeviceProfileProperties.UnlimitedCapacityIgnoresChecker | internal/core/metadata/application/deviceprofile.go:68-72 | When MaxResources <= 0, the capacity check is never consulted. |
| DeviceProfileProperties.UpdateEventCarriesStoredRecord | internal/core/metadata/application/deviceprofile.go:74-90 | Once the gates and the replace pass, the named row holds the input with the stored id. A failing re-fetch reports an error with no event. Otherwise one Update event carries the stored row, not the input. |
| DeviceProfileProperties.UpdatePreservesWellFormed | internal/core/metadata/application/deviceprofile.go:74-77 | Updating keeps profile names and ids unique. |
| DeviceProfileProperties.StrictDeletesLockEverything | internal/core/metadata/application/deviceprofile.go:120-123 | With strict deletes on, every delete fails ServiceLocked whatever the name or the store, and changes nothing. |
| DeviceProfileProperties.ReferencedProfileSurvives | internal/core/metadata/application/deviceprofile.go:132-146 | A stored profile that some device or provision watcher refers to is never deleted and can still be fetched. Past the earlier gates, the error is StatusConflict. |
| DeviceProfileProperties.DeleteRemovesOnlyNamed | internal/core/metadata/application/deviceprofile.go:148-156 | A successful delete keeps every profile with another name and removes the named one. Names and ids stay unique. The Delete event carries the profile as fetched before deletion. |
| DeviceProfileProperties.AddThenDeleteRestores | internal/core/metadata/application/deviceprofile.go:39-156 | An add followed by a delete of the same name, with nothing referring to it, restores the store. It queues an Add and a Delete event for the same stored profile. |
| DeviceProfileProperties.TotalCountIsNumberOfMatches | internal/core/metadata/application/deviceprofile.go:163-169 | The reported total is the number of distinct stored profiles the filter selects. |
| DeviceProfileProperties.StoppedPageIsEmpty | internal/core/metadata/application/deviceprofile.go:167-170 | When the range check says stop, the page is empty, the total is the true count, and the error is the range check's own (possibly none). |
| DeviceProfileProperties.PageIsWindowOfMatches | internal/core/metadata/application/deviceprofile.go:172-180 | Inside the range, with no error, the page is the run of matching profiles starting at the offset, in store order: at most `limit` of them, or every remaining match when the limit is negative. |
| DeviceProfileProperties.BasicInfosProjectProfiles | internal/core/metadata/application/deviceprofile.go:305-312 | Every basic-info element is the projection of a stored profile carrying one of the labels (any profile when none are given). On a well-formed store the total is the number of distinct such profiles. Inside the range the page is exactly the projection of the window of matches, with no error. |
| DeviceProfileProperties.EmptyFilterIgnoresStore | internal/core/metadata/application/deviceprofile.go:184-244 | An empty model or manufacturer filter, in each of the three filtered listings (including a non-empty manufacturer with an empty model), gets the same answer from any two stores: an empty page and a ContractInvalid error. |
| DeviceProfileProperties.EmptyNameIgnoresStore | internal/core/metadata/application/deviceprofile.go:105-108 | An empty lookup name gets the same ContractInvalid answer from any two stores. |
| DeviceProfileProperties.PatchNameMismatchRejected | internal/core/metadata/application/deviceprofile.go:329-331 | A payload name that differs from the resolved record's name gives ContractInvalid with nothing written and no event. |
| DeviceProfileProperties.PatchRewritesResolvedRecord | internal/core/metadata/application/deviceprofile.go:275-287 | A successful patch rewrites exactly the resolved record in place. Id, name and resources are kept, and the store stays well formed. The Update event carries the merged record now stored. |

## Left out

- Logging, correlation-id extraction from the context, and the dependency-container lookups are plumbing. The correlation id is an explicit argument instead.
- Goroutine dispatch and the bodies of `publishSystemEvent` and `publishUpdateDeviceProfileSystemEvent` are not modelled. Each is one event appended to the outbox. The update publisher is assumed to emit a device-profile Update event from core-metadata. Delivery and concurrency are out of scope.
- DTO conversion is the identity on the modelled fields, and the basic-info DTO is the projection onto them. Device commands and the other profile fields are not modelled.
- `ReplaceDeviceProfileModelBasicInfoFieldsWithDTO` is defined in go-mod-core-contracts, outside deviceprofile.go. `Models.ApplyBasicInfo` stands for it: each field present in the payload replaces the stored description, manufacturer, model or labels, and every other field is kept.
- `checkResourceCapacityByUpdateProfile` and `utils.CheckCountRange` are defined outside deviceprofile.go, so they are uninterpreted `Env` functions.
- DeviceProfileService.UpdateDeviceProfile: it promises only that the capacity check's own error is returned wrapped, not that its kind is StatusConflict, because the check is uninterpreted.
- DeviceProfileService.ListPage: the total is an unbounded `nat`, not a `uint32`. The model assumes a store never holds 2^32 matching profiles.
- The basic-info listing returns a nil slice when the range check says stop, and the other listings return an empty slice. Both are the empty sequence here.
- DeviceProfileService.DeviceProfileByDto: it requires a non-empty id or a present name. With neither, the source dereferences a nil name pointer; the payload's own validation rules that case out.
- Storage internals, indexing and id generation are not modelled. The backend's behaviour is the assumption described above.

=== FILE: deviceprofile.dfy ===
/** The device-profile application service: add, full update, basic-info
    patch, delete by name, lookup by name, and the five paged listings. Every
    operation runs its checks in the order the service makes them, touches the
    store only after they pass, and queues one system event once a write
    succeeds. The dependency container becomes an explicit `Env`, the
    request context an explicit correlation id, and the asynchronous publish an
    append to the outbox. */
module DeviceProfileService {
  import opened Errors
  import opened Models
  import opened ProfileStore
  import opened UnitsOfMeasure
  import opened Sequences

  /** The collaborators the service reaches through its dependency container:
      the configuration, the units-of-measure validator, the capacity check an
      update runs when a resource ceiling is set, and the pagination range
      check (which says whether to go on and, if not, which error, possibly
      none, to return). */
  datatype Env = Env(
    config: Config,
    unitValid: string -> bool,
    capacityCheck: (Store, DeviceProfile) -> Option<Error>,
    countRange: (nat, int, int) -> (bool, Option<Error>))

  /** The store and the events queued so far. */
  datatype State = State(store: Store, outbox: seq<SystemEvent>)

  /** What a mutating operation returns, with the state it leaves behind. */
  datatype Response<+T> = Response(result: Result<T>, state: State)

  /** What a listing returns: the page, the total count, and the error. */
  datatype Page<+T> = Page(items: seq<T>, totalCount: nat, err: Option<Error>)

  const StrictDeletesMessage := "profile deletion is not allowed when StrictDeviceProfileDeletes config is enabled"
  const DeviceInUseMessage := "fail to delete the device profile when associated device exists"
  const WatcherInUseMessage := "fail to delete the device profile when associated provisionWatcher exists"

  /** Commit `next` and queue one device-profile event. */
  function Emit(st: State, next: Store, action: Action, p: DeviceProfile, correlationId: string): State {
    State(next, st.outbox + [ProfileEvent(action, p, correlationId)])
  }

  predicate UnitsOk(env: Env, d: DeviceProfile) {
    UnitsAcceptable(env.config.uomValidation, env.unitValid, d)
  }

  /** Adding a profile: unit validation, then the insert, then one Add event
      carrying the stored profile. The returned id is the one the store
      assigned. */
  function AddDeviceProfile(env: Env, st: State, d: DeviceProfile, correlationId: string, freshId: string): (r: Response<string>)
    ensures r.result.Ok? <==>
      UnitsOk(env, d) && AddProfile !in st.store.failing &&
      !Has(st.store, ByName(d.name)) && !Has(st.store, ById(freshId))
    ensures !UnitsOk(env, d) ==> r.result.Err? && KindOf(r.result.error) == ContractInvalid
    ensures !UnitsOk(env, d) ==>
      r.result == Err(Wrap(DeviceProfileUoMValidation(env.config.uomValidation, env.unitValid, d).value))
    ensures UnitsOk(env, d) && Insert(st.store, d, freshId).Err? ==>
      r.result == Err(Wrap(Insert(st.store, d, freshId).error))
    ensures r.result.Err? ==> r.state == st
    ensures r.result.Ok? ==>
      var stored := d.(id := freshId);
      && r.result.value == freshId
      && r.state.store == st.store.(profiles := st.store.profiles + [stored])
      && r.state.outbox == st.outbox + [ProfileEvent(Add, stored, correlationId)]
  {
    match DeviceProfileUoMValidation(env.config.uomValidation, env.unitValid, d)
    case Some(e) => Response(Err(Wrap(e)), st)
    case None =>
      match Insert(st.store, d, freshId)
      case Err(e) => Response(Err(Wrap(e)), st)
      case Ok((added, next)) => Response(Ok(added.id), Emit(st, next, Add, added, correlationId))
  }

  /** The capacity gate of an update: the check runs only when a resource
      ceiling is configured. */
  function CapacityGate(env: Env, s: Store, d: DeviceProfile): Option<Error> {
    if env.config.maxResources > 0 then env.capacityCheck(s, d) else None
  }

  /** Full update: unit validation, the capacity gate, the replace, then a
      re-fetch by name whose result, not the input, goes into the one Update
      event. A failing re-fetch is reported although the write stands. */
  function UpdateDeviceProfile(env: Env, st: State, d: DeviceProfile, correlationId: string): (r: Response<()>)
    ensures !UnitsOk(env, d) ==>
      r.result.Err? && KindOf(r.result.error) == ContractInvalid && r.state == st
    ensures !UnitsOk(env, d) ==>
      r.result == Err(Wrap(DeviceProfileUoMValidation(env.config.uomValidation, env.unitValid, d).value))
    ensures UnitsOk(env, d) && env.config.maxResources > 0 && env.capacityCheck(st.store, d).Some? ==>
      r.result == Err(Wrap(env.capacityCheck(st.store, d).value)) && r.state == st
    ensures r.result.Ok? <==>
      && UnitsOk(env, d)
      && CapacityGate(env, st.store, d).None?
      && UpdateProfile !in st.store.failing
      && Has(st.store, ByName(d.name))
      && ProfileByName !in st.store.failing
    ensures UnitsOk(env, d) && CapacityGate(env, st.store, d).None? && Replace(st.store, d).Err? ==>
      r.result == Err(Wrap(Replace(st.store, d).error))
    ensures
      && UnitsOk(env, d) && CapacityGate(env, st.store, d).None? && Replace(st.store, d).Ok?
      && Fetch(Replace(st.store, d).value, ByName(d.name)).Err?
      ==> r.result == Err(Wrap(Fetch(Replace(st.store, d).value, ByName(d.name)).error))
    ensures r.result.Err? ==> r.state.outbox == st.outbox
    ensures r.state.store != st.store ==>
      UnitsOk(env, d) && CapacityGate(env, st.store, d).None? && Replace(st.store, d).Ok?
    ensures UnitsOk(env, d) && CapacityGate(env, st.store, d).None? && Replace(st.store, d).Ok? ==>
      r.state.store == Replace(st.store, d).value
    ensures r.result.Ok? ==>
      var i := IndexOf(st.store.profiles, ByName(d.name)).value;
      var stored := d.(id := st.store.profiles[i].id);
      && r.state.store.profiles == st.store.profiles[i := stored]
      && Fetch(r.state.store, ByName(d.name)) == Ok(stored)
      && r.state.outbox == st.outbox + [ProfileEvent(Update, stored, correlationId)]
  {
    match DeviceProfileUoMValidation(env.config.uomValidation, env.unitValid, d)
    case Some(e) => Response(Err(Wrap(e)), st)
    case None =>
      match CapacityGate(env, st.store, d)
      case Some(e) => Response(Err(Wrap(e)), st)
      case None =>
        match Replace(st.store, d)
        case Err(e) => Response(Err(Wrap(e)), st)
        case Ok(written) =>
          ReplacedIsFirstOfName(st.store, d);
          match Fetch(written, ByName(d.name))
          case Err(e) => Response(Err(Wrap(e)), st.(store := written))
          case Ok(profile) => Response(Ok(()), Emit(st, written, Update, profile, correlationId))
  }

  /** After a replace, the re-fetch by name finds the replaced row. */
  lemma ReplacedIsFirstOfName(s: Store, d: DeviceProfile)
    requires Replace(s, d).Ok?
    ensures
      var i := IndexOf(s.profiles, ByName(d.name)).value;
      IndexOf(Replace(s, d).value.profiles, ByName(d.name)) == Some(i)
  {
    var i := IndexOf(s.profiles, ByName(d.name)).value;
    var rows := Replace(s, d).value.profiles;
    assert Selects(ByName(d.name), rows[i]);
  }

  /** Whether some device uses the profile (`isProfileInUse`), asked through the
      backend's device count. */
  function IsProfileInUse(s: Store, name: string): (r: Result<bool>)
    ensures r.Ok? <==> CountDevices !in s.failing
    ensures r.Ok? ==> (r.value <==> Referenced(s.devices, name))
    ensures r.Err? ==> r.error == Wrap(OpFailure(CountDevices)) && KindOf(r.error) == DatabaseError
  {
    match DeviceCountByProfileName(s, name)
    case Err(e) => Err(Wrap(e))
    case Ok(count) =>
      ReferencingNonEmpty(s.devices, name);
      Ok(count > 0)
  }

  /** Lookup by name: an empty name is refused before the store is asked. */
  function DeviceProfileByName(s: Store, name: string): (r: Result<DeviceProfile>)
    ensures name == "" ==> r == Err(Raise(ContractInvalid, "name is empty"))
    ensures name != "" ==> (r.Ok? <==> ProfileByName !in s.failing && Has(s, ByName(name)))
    ensures name != "" && Fetch(s, ByName(name)).Err? ==> r == Err(Wrap(Fetch(s, ByName(name)).error))
    ensures r.Ok? ==> r.value in s.profiles && r.value.name == name
    ensures name != "" && r.Err? && ProfileByName !in s.failing ==> KindOf(r.error) == EntityDoesNotExist
  {
    if name == "" then Err(Raise(ContractInvalid, "name is empty"))
    else
      match Fetch(s, ByName(name))
      case Err(e) => Err(Wrap(e))
      case Ok(p) => Ok(p)
  }

  /** The delete gates pass: not locked, a name, the profile found, and neither
      a device nor a provision watcher referring to it. */
  predicate DeleteGatesPass(env: Env, s: Store, name: string) {
    && !env.config.strictDeviceProfileDeletes
    && name != ""
    && ProfileByName !in s.failing && Has(s, ByName(name))
    && ListDevices !in s.failing && !Referenced(s.devices, name)
    && ListProvisionWatchers !in s.failing && !Referenced(s.watchers, name)
  }

  /** Delete by name. The gates run in order: the strict-deletes lock, the
      empty name, the lookup, the device probe and the provision-watcher probe
      (each probe asks for one row at offset 0). Any failure leaves store and
      outbox untouched; success removes the row and queues one Delete event
      carrying the profile as it was before deletion. */
  function DeleteDeviceProfileByName(env: Env, st: State, name: string, correlationId: string): (r: Response<()>)
    ensures env.config.strictDeviceProfileDeletes ==>
      r.result == Err(Raise(ServiceLocked, StrictDeletesMessage))
    ensures !env.config.strictDeviceProfileDeletes && name == "" ==>
      r.result == Err(Raise(ContractInvalid, "name is empty"))
    ensures !env.config.strictDeviceProfileDeletes && name != "" && Fetch(st.store, ByName(name)).Err? ==>
      r.result == Err(Wrap(Fetch(st.store, ByName(name)).error))
    ensures
      && !env.config.strictDeviceProfileDeletes && name != "" && Fetch(st.store, ByName(name)).Ok?
      && ListDevices !in st.store.failing && Referenced(st.store.devices, name)
      ==> r.result == Err(Raise(StatusConflict, DeviceInUseMessage))
    ensures
      && !env.config.strictDeviceProfileDeletes && name != "" && Fetch(st.store, ByName(name)).Ok?
      && ListDevices in st.store.failing
      ==> r.result == Err(Wrap(OpFailure(ListDevices)))
    ensures
      && !env.config.strictDeviceProfileDeletes && name != "" && Fetch(st.store, ByName(name)).Ok?
      && ListDevices !in st.store.failing && !Referenced(st.store.devices, name)
      && ListProvisionWatchers in st.store.failing
      ==> r.result == Err(Wrap(OpFailure(ListProvisionWatchers)))
    ensures
      && !env.config.strictDeviceProfileDeletes && name != "" && Fetch(st.store, ByName(name)).Ok?
      && ListDevices !in st.store.failing && !Referenced(st.store.devices, name)
      && ListProvisionWatchers !in st.store.failing && Referenced(st.store.watchers, name)
      ==> r.result == Err(Raise(StatusConflict, WatcherInUseMessage))
    ensures DeleteGatesPass(env, st.store, name) && DeleteProfile in st.store.failing ==>
      r.result == Err(Wrap(OpFailure(DeleteProfile)))
    ensures r.result.Ok? <==> DeleteGatesPass(env, st.store, name) && DeleteProfile !in st.store.failing
    ensures r.result.Err? ==> r.state == st
    ensures r.result.Ok? ==>
      var i := IndexOf(st.store.profiles, ByName(name)).value;
      && r.state.store == st.store.(profiles := st.store.profiles[..i] + st.store.profiles[i + 1..])
      && r.state.outbox == st.outbox + [ProfileEvent(Delete, st.store.profiles[i], correlationId)]
  {
    if env.config.strictDeviceProfileDeletes then
      Response(Err(Raise(ServiceLocked, StrictDeletesMessage)), st)
    else if name == "" then
      Response(Err(Raise(ContractInvalid, "name is empty")), st)
    else
      match Fetch(st.store, ByName(name))
      case Err(e) => Response(Err(Wrap(e)), st)
      case Ok(profile) =>
        match DevicesByProfileName(st.store, 0, 1, name)
        case Err(e) => Response(Err(Wrap(e)), st)
        case Ok(devices) =>
          ProbeFindsReference(st.store.devices, name);
          if |devices| > 0 then
            Response(Err(Raise(StatusConflict, DeviceInUseMessage)), st)
          else
            match ProvisionWatchersByProfileName(st.store, 0, 1, name)
            case Err(e) => Response(Err(Wrap(e)), st)
            case Ok(watchers) =>
              ProbeFindsReference(st.store.watchers, name);
              if |watchers| > 0 then
                Response(Err(Raise(StatusConflict, WatcherInUseMessage)), st)
              else
                match Remove(st.store, name)
                case Err(e) => Response(Err(Wrap(e)), st)
                case Ok(next) => Response(Ok(()), Emit(st, next, Delete, profile, correlationId))
  }

  /** The shape every listing shares: count the matches, ask the range check,
      and only when it says go on fetch the page. The total is the store's
      count whenever the count itself succeeded. */
  function ListPage(env: Env, s: Store, offset: int, limit: int, f: Filter): (r: Page<DeviceProfile>)
    ensures CountProfiles in s.failing ==>
      r.items == [] && r.err == Some(Wrap(OpFailure(CountProfiles)))
    ensures CountProfiles !in s.failing ==> r.totalCount == |Matching(s, f)|
    ensures CountProfiles !in s.failing && !env.countRange(|Matching(s, f)|, offset, limit).0 ==>
      r.items == [] && r.err == env.countRange(|Matching(s, f)|, offset, limit).1
    ensures CountProfiles !in s.failing && env.countRange(|Matching(s, f)|, offset, limit).0 ==>
      if ListProfiles in s.failing
      then r.items == [] && r.err == Some(Wrap(OpFailure(ListProfiles)))
      else r.err.None? && r.items == Window(Matching(s, f), offset, limit)
    ensures forall i :: 0 <= i < |r.items| ==> r.items[i] in s.profiles && Matches(r.items[i], f)
  {
    match Count(s, f)
    case Err(e) => Page([], 0, Some(Wrap(e)))
    case Ok(total) =>
      var (cont, err) := env.countRange(total, offset, limit);
      if !cont then Page([], total, err)
      else
        match List(s, offset, limit, f)
        case Err(e) => Page([], total, Some(Wrap(e)))
        case Ok(rows) => Page(rows, total, None)
  }

  /** All profiles carrying any of the given labels (every profile when none
      are given). */
  function AllDeviceProfiles(env: Env, s: Store, offset: int, limit: int, labels: seq<string>): (r: Page<DeviceProfile>)
    ensures r == ListPage(env, s, offset, limit, WithLabels(labels))
    ensures CountProfiles !in s.failing ==> r.totalCount == |Matching(s, WithLabels(labels))|
    ensures forall i :: 0 <= i < |r.items| ==> r.items[i] in s.profiles && Matches(r.items[i], WithLabels(labels))
  {
    ListPage(env, s, offset, limit, WithLabels(labels))
  }

  function EmptyArgument(message: string): Page<DeviceProfile> {
    Page([], 0, Some(Raise(ContractInvalid, message)))
  }

  /** Profiles of one model; an empty model is refused before the store is
      asked. */
  function DeviceProfilesByModel(env: Env, s: Store, offset: int, limit: int, model: string): (r: Page<DeviceProfile>)
    ensures model == "" ==> r == EmptyArgument("model is empty")
    ensures model != "" ==> r == ListPage(env, s, offset, limit, WithModel(model))
    ensures forall i :: 0 <= i < |r.items| ==> r.items[i] in s.profiles && r.items[i].model == model
  {
    if model == "" then EmptyArgument("model is empty")
    else ListPage(env, s, offset, limit, WithModel(model))
  }

  /** Profiles of one manufacturer; an empty manufacturer is refused before the
      store is asked. */
  function DeviceProfilesByManufacturer(env: Env, s: Store, offset: int, limit: int, manufacturer: string): (r: Page<DeviceProfile>)
    ensures manufacturer == "" ==> r == EmptyArgument("manufacturer is empty")
    ensures manufacturer != "" ==> r == ListPage(env, s, offset, limit, WithManufacturer(manufacturer))
    ensures forall i :: 0 <= i < |r.items| ==> r.items[i] in s.profiles && r.items[i].manufacturer == manufacturer
  {
    if manufacturer == "" then EmptyArgument("manufacturer is empty")
    else ListPage(env, s, offset, limit, WithManufacturer(manufacturer))
  }

  /** Profiles of one manufacturer and model; the manufacturer is checked
      before the model, both before the store is asked. */
  function DeviceProfilesByManufacturerAndModel(env: Env, s: Store, offset: int, limit: int, manufacturer: string, model: string): (r: Page<DeviceProfile>)
    ensures manufacturer == "" ==> r == EmptyArgument("manufacturer is empty")
    ensures manufacturer != "" && model == "" ==> r == EmptyArgument("model is empty")
    ensures manufacturer != "" && model != "" ==>
      r == ListPage(env, s, offset, limit, WithManufacturerAndModel(manufacturer, model))
    ensures forall i :: 0 <= i < |r.items| ==>
      r.items[i] in s.profiles && r.items[i].manufacturer == manufacturer && r.items[i].model == model
  {
    if manufacturer == "" then EmptyArgument("manufacturer is empty")
    else if model == "" then EmptyArgument("model is empty")
    else ListPage(env, s, offset, limit, WithManufacturerAndModel(manufacturer, model))
  }

  /** The basic-info listing: the same page as the label listing, each profile
      projected onto its basic info, in order. */
  function AllDeviceProfileBasicInfos(env: Env, s: Store, offset: int, limit: int, labels: seq<string>): (r: Page<DeviceProfileBasicInfo>)
    ensures
      var full := ListPage(env, s, offset, limit, WithLabels(labels));
      && r.totalCount == full.totalCount
      && r.err == full.err
      && |r.items| == |full.items|
      && forall i :: 0 <= i < |r.items| ==> r.items[i] == BasicInfoOf(full.items[i])
  {
    var full := ListPage(env, s, offset, limit, WithLabels(labels));
    Page(seq(|full.items|, i requires 0 <= i < |full.items| => BasicInfoOf(full.items[i])), full.totalCount, full.err)
  }

  /** The record a patch targets: by id when the payload carries a non-empty
      id, otherwise by name. */
  function PatchSelector(patch: BasicInfoPatch): (sel: Selector)
    requires HasSelector(patch)
    ensures patch.id.Some? && patch.id.value != "" ==> sel == ById(patch.id.value)
    ensures !(patch.id.Some? && patch.id.value != "") ==> sel == ByName(patch.name.value)
  {
    if patch.id.Some? && patch.id.value != "" then ById(patch.id.value) else ByName(patch.name.value)
  }

  /** Resolving a patch's target (`deviceProfileByDTO`): fetch through the
      selector, then refuse a payload name that differs from the fetched
      record's name. */
  function DeviceProfileByDto(s: Store, patch: BasicInfoPatch): (r: Result<DeviceProfile>)
    requires HasSelector(patch)
    ensures Fetch(s, PatchSelector(patch)).Err? ==> r == Err(Wrap(Fetch(s, PatchSelector(patch)).error))
    ensures Fetch(s, PatchSelector(patch)).Ok? ==>
      var p := Fetch(s, PatchSelector(patch)).value;
      && (patch.name.Some? && patch.name.value != p.name ==> r.Err? && KindOf(r.error) == ContractInvalid)
      && (patch.name.None? || patch.name.value == p.name ==> r == Ok(p))
    ensures r.Ok? ==> r.value in s.profiles && Selects(PatchSelector(patch), r.value)
    ensures r.Ok? && patch.id.Some? && patch.id.value != "" ==> r.value.id == patch.id.value
    ensures r.Ok? && !(patch.id.Some? && patch.id.value != "") ==> r.value.name == patch.name.value
    ensures patch.id.Some? && patch.id.value != "" && ProfileById !in s.failing && !Has(s, ById(patch.id.value)) ==>
      r.Err? && KindOf(r.error) == EntityDoesNotExist
  {
    match Fetch(s, PatchSelector(patch))
    case Err(e) => Err(Wrap(e))
    case Ok(p) =>
      if patch.name.Some? && patch.name.value != p.name then
        Err(Raise(ContractInvalid,
          "device profile name '" + patch.name.value + "' not match the exsting '" + p.name + "' "))
      else Ok(p)
  }

  /** Patching basic info: resolve the target, merge the payload's fields into
      it, replace, and queue one Update event carrying the merged record. No
      unit validation and no capacity check happen on this path. */
  function PatchDeviceProfileBasicInfo(st: State, patch: BasicInfoPatch, correlationId: string): (r: Response<()>)
    requires HasSelector(patch)
    ensures DeviceProfileByDto(st.store, patch).Err? ==>
      r.result == Err(Wrap(DeviceProfileByDto(st.store, patch).error))
    ensures
      && DeviceProfileByDto(st.store, patch).Ok?
      && Replace(st.store, ApplyBasicInfo(DeviceProfileByDto(st.store, patch).value, patch)).Err?
      ==> r.result == Err(Wrap(Replace(st.store, ApplyBasicInfo(DeviceProfileByDto(st.store, patch).value, patch)).error))
    ensures r.result.Ok? <==> DeviceProfileByDto(st.store, patch).Ok? && UpdateProfile !in st.store.failing
    ensures r.result.Err? ==> r.state == st
    ensures r.result.Ok? ==>
      var merged := ApplyBasicInfo(DeviceProfileByDto(st.store, patch).value, patch);
      var i := IndexOf(st.store.profiles, ByName(merged.name)).value;
      && r.state.store == st.store.(profiles := st.store.profiles[i := merged.(id := st.store.profiles[i].id)])
      && r.state.outbox == st.outbox + [ProfileEvent(Update, merged, correlationId)]
  {
    match DeviceProfileByDto(st.store, patch)
    case Err(e) => Response(Err(Wrap(e)), st)
    case Ok(p) =>
      var merged := ApplyBasicInfo(p, patch);
      match Replace(st.store, merged)
      case Err(e) => Response(Err(Wrap(e)), st)
      case Ok(next) => Response(Ok(()), Emit(st, next, Update, merged, correlationId))
  }
}

=== FILE: errors.dfy ===
/** Error values of the service layer, after the EdgeX contracts' error package.
    A leaf error carries a kind and a message; a wrapper adds one layer of caller
    context around a cause and reports the kind of what it wraps, so a store
    failure re-surfaces with its kind and its root cause preserved. It also holds
    `Option` and `Result`. */
module Errors {

  /** The error kinds the device-profile service produces or propagates. */
  datatype Kind =
    | ContractInvalid
    | StatusConflict
    | ServiceLocked
    | EntityDoesNotExist
    | DuplicateName
    | DatabaseError

  datatype Error =
    | Leaf(kind: Kind, message: string)
    | Wrapped(cause: Error)

  /** The kind an error reports: a wrapper reports the kind of its cause. */
  function KindOf(e: Error): Kind {
    match e
    case Leaf(k, _) => k
    case Wrapped(c) => KindOf(c)
  }

  /** The innermost error, the one that was first raised. */
  function Root(e: Error): Error {
    match e
    case Leaf(_, _) => e
    case Wrapped(c) => Root(c)
  }

  /** A new leaf error of the given kind (`errors.NewCommonEdgeX`). */
  function Raise(k: Kind, message: string): (e: Error)
    ensures KindOf(e) == k
    ensures Root(e) == e
  {
    Leaf(k, message)
  }

  /** Wrapping an error to pass it up (`errors.NewCommonEdgeXWrapper`) keeps its
      kind and its root cause. */
  function Wrap(e: Error): (w: Error)
    ensures KindOf(w) == KindOf(e)
    ensures Root(w) == Root(e)
  {
    Wrapped(e)
  }

  datatype Option<+T> = None | Some(value: T)

  /** The value-or-error return of a Go function `(T, errors.EdgeX)`. */
  datatype Result<+T> = Ok(value: T) | Err(error: Error)
}

=== FILE: models.dfy ===
/** The entities the device-profile service handles: the profile itself, its
    basic-info projection and patch payload, the references devices and
    provision watchers hold to a profile, the system events the service queues,
    and the configuration switches it consults. */
module Models {
  import opened Errors

  /** A device resource, reduced to what the service inspects: its name and the
      unit of measure in its properties. */
  datatype DeviceResource = DeviceResource(name: string, units: string)

  datatype DeviceProfile = DeviceProfile(
    id: string,
    name: string,
    description: string,
    manufacturer: string,
    model: string,
    labels: seq<string>,
    deviceResources: seq<DeviceResource>)

  /** The basic-info view of a profile: every field but the resources. */
  datatype DeviceProfileBasicInfo = DeviceProfileBasicInfo(
    id: string,
    name: string,
    description: string,
    manufacturer: string,
    model: string,
    labels: seq<string>)

  /** Projection of a stored profile onto its basic-info view. */
  function BasicInfoOf(p: DeviceProfile): DeviceProfileBasicInfo {
    DeviceProfileBasicInfo(p.id, p.name, p.description, p.manufacturer, p.model, p.labels)
  }

  /** The payload of a basic-info patch: every field is optional. The id or the
      name selects the profile; the other fields replace the stored ones. */
  datatype BasicInfoPatch = BasicInfoPatch(
    id: Option<string>,
    name: Option<string>,
    description: Option<string>,
    manufacturer: Option<string>,
    model: Option<string>,
    labels: Option<seq<string>>)

  /** The payload's own validation guarantees a selector: a non-empty id, or else
      a name. */
  predicate HasSelector(patch: BasicInfoPatch) {
    (patch.id.Some? && patch.id.value != "") || patch.name.Some?
  }

  function OrElse<T>(o: Option<T>, current: T): T {
    match o
    case Some(v) => v
    case None => current
  }

  /** Merging a patch into a fetched profile: each field the payload carries
      replaces the stored one, every other field is kept. Id, name and device
      resources are never touched. */
  function ApplyBasicInfo(p: DeviceProfile, patch: BasicInfoPatch): (m: DeviceProfile)
    ensures m.id == p.id && m.name == p.name && m.deviceResources == p.deviceResources
    ensures patch.description.None? ==> m.description == p.description
    ensures patch.description.Some? ==> m.description == patch.description.value
    ensures patch.manufacturer.None? ==> m.manufacturer == p.manufacturer
    ensures patch.manufacturer.Some? ==> m.manufacturer == patch.manufacturer.value
    ensures patch.model.None? ==> m.model == p.model
    ensures patch.model.Some? ==> m.model == patch.model.value
    ensures patch.labels.None? ==> m.labels == p.labels
    ensures patch.labels.Some? ==> m.labels == patch.labels.value
  {
    p.(description := OrElse(patch.description, p.description),
       manufacturer := OrElse(patch.manufacturer, p.manufacturer),
       model := OrElse(patch.model, p.model),
       labels := OrElse(patch.labels, p.labels))
  }

  /** A device or a provision watcher, reduced to its name and the name of the
      profile it refers to. */
  datatype Reference = Reference(name: string, profileName: string)

  datatype EventType = DeviceProfileEventType
  datatype ServiceKey = CoreMetadata
  datatype Action = Add | Update | Delete

  /** A queued system event: type tag, action, originating service, the affected
      profile and the correlation id of the request that caused it. */
  datatype SystemEvent = SystemEvent(
    eventType: EventType,
    action: Action,
    source: ServiceKey,
    details: DeviceProfile,
    correlationId: string)

  /** The device-profile event for one action, as the service queues it. */
  function ProfileEvent(action: Action, p: DeviceProfile, correlationId: string): SystemEvent {
    SystemEvent(DeviceProfileEventType, action, CoreMetadata, p, correlationId)
  }

  /** The writable configuration the service reads: the UoM validation switch,
      the per-profile resource ceiling (0 or less means none) and the strict
      profile-deletes switch. */
  datatype Config = Config(
    uomValidation: bool,
    maxResources: int,
    strictDeviceProfileDeletes: bool)
}

=== FILE: properties.dfy ===
/** Properties that relate several calls of the device-profile service, or one
    call and the store it leaves behind. */
module DeviceProfileProperties {
  import opened Errors
  import opened Models
  import opened ProfileStore
  import opened Sequences
  import opened DeviceProfileService

  /** With validation on and some resource unit rejected, both add and update
      fail ContractInvalid and leave store and outbox untouched. */
  lemma InvalidUnitsRejected(env: Env, st: State, d: DeviceProfile, correlationId: string, freshId: string, k: nat)
    requires env.config.uomValidation
    requires k < |d.deviceResources| && !env.unitValid(d.deviceResources[k].units)
    ensures
      var added := AddDeviceProfile(env, st, d, correlationId, freshId);
      added.result.Err? && KindOf(added.result.error) == ContractInvalid && added.state == st
    ensures
      var updated := UpdateDeviceProfile(env, st, d, correlationId);
      updated.result.Err? && KindOf(updated.result.error) == ContractInvalid && updated.state == st
  {
  }

  /** With validation off, the validator is never consulted: add and update
      behave the same whatever it answers. */
  lemma ValidationOffIgnoresValidator(env: Env, other: string -> bool, st: State, d: DeviceProfile, correlationId: string, freshId: string)
    requires !env.config.uomValidation
    ensures AddDeviceProfile(env, st, d, correlationId, freshId) == AddDeviceProfile(env.(unitValid := other), st, d, correlationId, freshId)
    ensures UpdateDeviceProfile(env, st, d, correlationId) == UpdateDeviceProfile(env.(unitValid := other), st, d, correlationId)
  {
  }

  /** A profile just added can be fetched by its name and by the id the store
      assigned, and is exactly what the Add event carries. */
  lemma AddThenFetch(env: Env, st: State, d: DeviceProfile, correlationId: string, freshId: string)
    requires AddDeviceProfile(env, st, d, correlationId, freshId).result.Ok?
    requires ProfileByName !in st.store.failing && ProfileById !in st.store.failing
    ensures
      var r := AddDeviceProfile(env, st, d, correlationId, freshId);
      && Fetch(r.state.store, ByName(d.name)) == Ok(d.(id := freshId))
      && Fetch(r.state.store, ById(r.result.value)) == Ok(d.(id := freshId))
      && r.state.outbox[|r.state.outbox| - 1].details == d.(id := freshId)
      && (d.name != "" ==> DeviceProfileByName(r.state.store, d.name) == Ok(d.(id := freshId)))
  {
    var stored := d.(id := freshId);
    IndexOfAppend(st.store.profiles, stored, ByName(d.name));
    IndexOfAppend(st.store.profiles, stored, ById(freshId));
  }

  /** Adding keeps names and ids unique. */
  lemma AddPreservesWellFormed(env: Env, st: State, d: DeviceProfile, correlationId: string, freshId: string)
    requires WellFormed(st.store)
    ensures WellFormed(AddDeviceProfile(env, st, d, correlationId, freshId).state.store)
  {
  }

  /** With no resource ceiling configured the capacity check is never
      consulted. */
  lemma UnlimitedCapacityIgnoresChecker(env: Env, other: (Store, DeviceProfile) -> Option<Error>, st: State, d: DeviceProfile, correlationId: string)
    requires env.config.maxResources <= 0
    ensures UpdateDeviceProfile(env, st, d, correlationId) == UpdateDeviceProfile(env.(capacityCheck := other), st, d, correlationId)
  {
  }

  /** The Update event carries the stored record, which keeps the stored id
      even when the input carries another one; a failed re-fetch leaves the
      write in place with no event. */
  lemma UpdateEventCarriesStoredRecord(env: Env, st: State, d: DeviceProfile, correlationId: string)
    requires UnitsOk(env, d) && CapacityGate(env, st.store, d).None?
    requires UpdateProfile !in st.store.failing && Has(st.store, ByName(d.name))
    ensures
      var r := UpdateDeviceProfile(env, st, d, correlationId);
      var i := IndexOf(st.store.profiles, ByName(d.name)).value;
      && r.state.store.profiles == st.store.profiles[i := d.(id := st.store.profiles[i].id)]
      && (ProfileByName in st.store.failing ==> r.result.Err? && r.state.outbox == st.outbox)
      && (ProfileByName !in st.store.failing ==>
            r.result.Ok? &&
            r.state.outbox == st.outbox + [ProfileEvent(Update, d.(id := st.store.profiles[i].id), correlationId)])
  {
  }

  /** Updating keeps names and ids unique. */
  lemma UpdatePreservesWellFormed(env: Env, st: State, d: DeviceProfile, correlationId: string)
    requires WellFormed(st.store)
    ensures WellFormed(UpdateDeviceProfile(env, st, d, correlationId).state.store)
  {
  }

  /** Strict deletes refuse every deletion, whatever the name and whatever the
      store holds, and change nothing. */
  lemma StrictDeletesLockEverything(env: Env, st: State, name: string, correlationId: string)
    requires env.config.strictDeviceProfileDeletes
    ensures
      var r := DeleteDeviceProfileByName(env, st, name, correlationId);
      r.result.Err? && KindOf(r.result.error) == ServiceLocked && r.state == st
  {
  }

  /** A profile some device or provision watcher refers to is never deleted:
      the delete fails, and the profile can still be fetched afterwards. */
  lemma ReferencedProfileSurvives(env: Env, st: State, name: string, correlationId: string)
    requires ProfileByName !in st.store.failing && Has(st.store, ByName(name))
    requires Referenced(st.store.devices, name) || Referenced(st.store.watchers, name)
    ensures
      var r := DeleteDeviceProfileByName(env, st, name, correlationId);
      && r.result.Err?
      && r.state == st
      && Fetch(r.state.store, ByName(name)).Ok?
      && (!env.config.strictDeviceProfileDeletes && name != "" &&
          ListDevices !in st.store.failing && ListProvisionWatchers !in st.store.failing
          ==> KindOf(r.result.error) == StatusConflict)
  {
  }

  /** On a well-formed store a successful delete removes exactly the named
      profile: every other profile stays, the named one is gone, names and ids
      stay unique, and the Delete event carries the profile as it was. */
  lemma DeleteRemovesOnlyNamed(env: Env, st: State, name: string, correlationId: string)
    requires WellFormed(st.store)
    requires DeleteDeviceProfileByName(env, st, name, correlationId).result.Ok?
    ensures
      var after := DeleteDeviceProfileByName(env, st, name, correlationId).state;
      && (forall p :: p in after.store.profiles <==> p in st.store.profiles && p.name != name)
      && |after.store.profiles| == |st.store.profiles| - 1
      && WellFormed(after.store)
      && after.outbox == st.outbox + [ProfileEvent(Delete, Fetch(st.store, ByName(name)).value, correlationId)]
  {
  }

  /** Adding a profile and then deleting it by name, with nothing referring to
      it, gives back the store as it was and queues an Add then a Delete event
      for the same stored profile. */
  lemma AddThenDeleteRestores(env: Env, st: State, d: DeviceProfile, addId: string, deleteId: string, freshId: string)
    requires UnitsOk(env, d) && AddProfile !in st.store.failing
    requires !Has(st.store, ByName(d.name)) && !Has(st.store, ById(freshId))
    requires !env.config.strictDeviceProfileDeletes && d.name != ""
    requires !Referenced(st.store.devices, d.name) && !Referenced(st.store.watchers, d.name)
    requires ProfileByName !in st.store.failing && DeleteProfile !in st.store.failing
    requires ListDevices !in st.store.failing && ListProvisionWatchers !in st.store.failing
    ensures
      var added := AddDeviceProfile(env, st, d, addId, freshId);
      var deleted := DeleteDeviceProfileByName(env, added.state, d.name, deleteId);
      && added.result.Ok?
      && deleted.result.Ok?
      && deleted.state.store == st.store
      && deleted.state.outbox == st.outbox + [ProfileEvent(Add, d.(id := freshId), addId), ProfileEvent(Delete, d.(id := freshId), deleteId)]
  {
    var stored := d.(id := freshId);
    var added := AddDeviceProfile(env, st, d, addId, freshId).state;
    IndexOfAppend(st.store.profiles, stored, ByName(d.name));
    assert added.store.profiles == st.store.profiles + [stored];
    assert Selects(ByName(d.name), added.store.profiles[|st.store.profiles|]);
    var n := |st.store.profiles|;
    assert added.store.profiles[..n] == st.store.profiles;
    assert added.store.profiles[n + 1..] == [];
    assert added.store.profiles[n] == stored;
    assert Fetch(added.store, ByName(d.name)) == Ok(stored);
    assert added.store.devices == st.store.devices && added.store.watchers == st.store.watchers;
  }

  /** Every listing reports the store's count for its filter, even when the
      page is empty, and on a well-formed store that count is the number of
      stored profiles the filter selects. */
  lemma TotalCountIsNumberOfMatches(env: Env, s: Store, offset: int, limit: int, f: Filter)
    requires WellFormed(s) && CountProfiles !in s.failing
    ensures ListPage(env, s, offset, limit, f).totalCount == |MatchingSet(s, f)|
  {
    MatchingCount(s, f);
  }

  /** When the range check says stop, the page is empty and the range check's
      own error, possibly none, is returned with the true total. */
  lemma StoppedPageIsEmpty(env: Env, s: Store, offset: int, limit: int, f: Filter)
    requires CountProfiles !in s.failing
    requires !env.countRange(|Matching(s, f)|, offset, limit).0
    ensures
      var r := ListPage(env, s, offset, limit, f);
      r.items == [] && r.totalCount == |Matching(s, f)| && r.err == env.countRange(|Matching(s, f)|, offset, limit).1
  {
  }

  /** When the range check says go on and the offset lies inside the matches,
      the page is the stretch of matching profiles that starts at the offset,
      one element per stored row, in store order: at most `limit` of them, or
      all the rest when the limit is negative. */
  lemma PageIsWindowOfMatches(env: Env, s: Store, offset: int, limit: int, f: Filter)
    requires CountProfiles !in s.failing && ListProfiles !in s.failing
    requires env.countRange(|Matching(s, f)|, offset, limit).0
    requires 0 <= offset <= |Matching(s, f)|
    ensures
      var r := ListPage(env, s, offset, limit, f);
      var m := Matching(s, f);
      && r.err.None?
      && (limit < 0 ==> r.items == m[offset..])
      && (0 <= limit ==>
            && |r.items| == (if offset + limit <= |m| then limit else |m| - offset)
            && forall i :: 0 <= i < |r.items| ==> r.items[i] == m[offset + i])
  {
  }

  /** Every element of the basic-info listing is the basic info of a stored
      profile that carries one of the labels (any profile when no labels are
      given); on a well-formed store the total is the number of such profiles;
      and inside the range the page projects exactly the label listing's
      window of matches. */
  lemma BasicInfosProjectProfiles(env: Env, s: Store, offset: int, limit: int, labels: seq<string>)
    ensures
      var infos := AllDeviceProfileBasicInfos(env, s, offset, limit, labels);
      forall i :: 0 <= i < |infos.items| ==>
        exists p :: p in s.profiles && Matches(p, WithLabels(labels)) && infos.items[i] == BasicInfoOf(p)
    ensures WellFormed(s) && CountProfiles !in s.failing ==>
      AllDeviceProfileBasicInfos(env, s, offset, limit, labels).totalCount == |MatchingSet(s, WithLabels(labels))|
    ensures
      var m := Matching(s, WithLabels(labels));
      var infos := AllDeviceProfileBasicInfos(env, s, offset, limit, labels);
      CountProfiles !in s.failing && ListProfiles !in s.failing && env.countRange(|m|, offset, limit).0 ==>
        && infos.err.None?
        && |infos.items| == |Window(m, offset, limit)|
        && forall i :: 0 <= i < |infos.items| ==> infos.items[i] == BasicInfoOf(Window(m, offset, limit)[i])
  {
    var full := ListPage(env, s, offset, limit, WithLabels(labels));
    var infos := AllDeviceProfileBasicInfos(env, s, offset, limit, labels);
    forall i | 0 <= i < |infos.items|
      ensures exists p :: p in s.profiles && Matches(p, WithLabels(labels)) && infos.items[i] == BasicInfoOf(p)
    {
      assert full.items[i] in s.profiles && Matches(full.items[i], WithLabels(labels));
    }
    if WellFormed(s) && CountProfiles !in s.failing {
      MatchingCount(s, WithLabels(labels));
    }
  }

  /** An empty filter argument is refused ContractInvalid without looking at
      the store: two stores give the same answer. */
  lemma EmptyFilterIgnoresStore(env: Env, s1: Store, s2: Store, offset: int, limit: int, other: string)
    ensures DeviceProfilesByModel(env, s1, offset, limit, "") == DeviceProfilesByModel(env, s2, offset, limit, "")
    ensures DeviceProfilesByManufacturer(env, s1, offset, limit, "") == DeviceProfilesByManufacturer(env, s2, offset, limit, "")
    ensures DeviceProfilesByManufacturerAndModel(env, s1, offset, limit, "", other) ==
            DeviceProfilesByManufacturerAndModel(env, s2, offset, limit, "", other)
    ensures other != "" ==>
      DeviceProfilesByManufacturerAndModel(env, s1, offset, limit, other, "") ==
      DeviceProfilesByManufacturerAndModel(env, s2, offset, limit, other, "")
    ensures
      var byModel := DeviceProfilesByModel(env, s1, offset, limit, "");
      byModel.items == [] && byModel.err.Some? && KindOf(byModel.err.value) == ContractInvalid
    ensures
      var byManufacturer := DeviceProfilesByManufacturer(env, s1, offset, limit, "");
      byManufacturer.items == [] && byManufacturer.err.Some? && KindOf(byManufacturer.err.value) == ContractInvalid
    ensures
      var byBoth := DeviceProfilesByManufacturerAndModel(env, s1, offset, limit, "", other);
      byBoth.items == [] && byBoth.err.Some? && KindOf(byBoth.err.value) == ContractInvalid
    ensures other != "" ==>
      var byBoth := DeviceProfilesByManufacturerAndModel(env, s1, offset, limit, other, "");
      byBoth.items == [] && byBoth.err.Some? && KindOf(byBoth.err.value) == ContractInvalid
  {
  }

  /** An empty lookup name is refused without looking at the store. */
  lemma EmptyNameIgnoresStore(s1: Store, s2: Store)
    ensures DeviceProfileByName(s1, "") == DeviceProfileByName(s2, "")
    ensures DeviceProfileByName(s1, "").Err? && KindOf(DeviceProfileByName(s1, "").error) == ContractInvalid
  {
  }

  /** A patch whose payload name differs from the resolved record's name is
      refused ContractInvalid and changes nothing. */
  lemma PatchNameMismatchRejected(st: State, patch: BasicInfoPatch, correlationId: string)
    requires HasSelector(patch) && patch.name.Some?
    requires Fetch(st.store, PatchSelector(patch)).Ok?
    requires Fetch(st.store, PatchSelector(patch)).value.name != patch.name.value
    ensures
      var r := PatchDeviceProfileBasicInfo(st, patch, correlationId);
      r.result.Err? && KindOf(r.result.error) == ContractInvalid && r.state == st
  {
  }

  /** On a well-formed store a successful patch rewrites exactly the resolved
      record: it keeps its position, id, name and resources, takes the payload's
      present fields, the store stays well formed, and the Update event carries
      what is now stored. */
  lemma PatchRewritesResolvedRecord(st: State, patch: BasicInfoPatch, correlationId: string)
    requires WellFormed(st.store) && HasSelector(patch)
    requires PatchDeviceProfileBasicInfo(st, patch, correlationId).result.Ok?
    ensures
      var p := Fetch(st.store, PatchSelector(patch)).value;
      var i := IndexOf(st.store.profiles, ByName(p.name)).value;
      var merged := ApplyBasicInfo(p, patch);
      var after := PatchDeviceProfileBasicInfo(st, patch, correlationId).state;
      && st.store.profiles[i] == p
      && after.store.profiles == st.store.profiles[i := merged]
      && merged.id == p.id && merged.name == p.name && merged.deviceResources == p.deviceResources
      && WellFormed(after.store)
      && after.outbox == st.outbox + [ProfileEvent(Update, merged, correlationId)]
  {
  }
}

=== FILE: sequences.dfy ===
/** Generic sequence helpers the store and the unit validation share: the
    first position where a predicate holds, the elements a predicate keeps, and
    a clipped window. */
module Sequences {
  import opened Errors

  /** The first position of `xs` where `p` holds, if any. */
  function FirstWhere<T>(xs: seq<T>, p: T -> bool): (r: Option<nat>)
    ensures r.Some? ==> r.value < |xs| && p(xs[r.value])
    ensures r.Some? ==> forall j :: 0 <= j < r.value ==> !p(xs[j])
    ensures r.None? <==> forall j :: 0 <= j < |xs| ==> !p(xs[j])
  {
    if |xs| == 0 then None
    else if p(xs[0]) then Some(0)
    else
      match FirstWhere(xs[1..], p)
      case None => None
      case Some(i) => Some(i + 1)
  }

  /** The elements of `xs` that `keep` accepts, in their order in `xs`. */
  function KeepIf<T>(xs: seq<T>, keep: T -> bool): (r: seq<T>)
    ensures |r| <= |xs|
    ensures forall i :: 0 <= i < |r| ==> r[i] in xs && keep(r[i])
    ensures forall i :: 0 <= i < |xs| && keep(xs[i]) ==> xs[i] in r
  {
    if |xs| == 0 then []
    else if keep(xs[0]) then [xs[0]] + KeepIf(xs[1..], keep)
    else KeepIf(xs[1..], keep)
  }

  /** The window `[offset, offset + limit)` of `xs`, clipped to `xs`; a negative
      limit means no upper bound. */
  function Window<T>(xs: seq<T>, offset: int, limit: int): (r: seq<T>)
    ensures |r| <= |xs|
    ensures forall i :: 0 <= i < |r| ==> r[i] in xs
    ensures 0 <= offset <= |xs| && limit < 0 ==> r == xs[offset..]
    ensures 0 <= offset <= |xs| && 0 <= limit ==>
      |r| == (if offset + limit <= |xs| then limit else |xs| - offset) &&
      forall i :: 0 <= i < |r| ==> r[i] == xs[offset + i]
  {
    var start := if offset < 0 then 0 else if offset > |xs| then |xs| else offset;
    var end := if limit < 0 || start + limit > |xs| then |xs| else start + limit;
    xs[start..end]
  }

  /** The set of elements of `xs` that `keep` accepts. */
  ghost function Accepted<T>(xs: seq<T>, keep: T -> bool): set<T> {
    set x | x in xs && keep(x)
  }

  /** On a duplicate-free sequence, the filtered sequence has exactly as many
      elements as the set of accepted elements. */
  lemma {:induction false} KeepIfCardinality<T>(xs: seq<T>, keep: T -> bool)
    requires forall i, j :: 0 <= i < j < |xs| ==> xs[i] != xs[j]
    ensures |KeepIf(xs, keep)| == |Accepted(xs, keep)|
  {
    var all := Accepted(xs, keep);
    if |xs| == 0 {
      assert all == {};
    } else {
      var tail := xs[1..];
      assert xs == [xs[0]] + tail;
      KeepIfCardinality(tail, keep);
      var rest := Accepted(tail, keep);
      assert xs[0] !in tail;
      if keep(xs[0]) {
        assert all == rest + {xs[0]};
      } else {
        assert all == rest;
      }
    }
  }
}

=== FILE: store.dfy ===
/** The persistence backend as the service sees it: an immutable snapshot of
    the stored profiles (in the order the backend lists them), the devices and
    provision watchers that refer to profiles by name, and the set of backend
    operations that currently fail with a database error. Every operation is a
    pure function of the snapshot; a write returns the next snapshot. */
module ProfileStore {
  import opened Errors
  import opened Models
  import opened Sequences

  /** The backend calls the service makes. */
  datatype Op =
    | AddProfile
    | UpdateProfile
    | ProfileById
    | ProfileByName
    | DeleteProfile
    | CountProfiles
    | ListProfiles
    | CountDevices
    | ListDevices
    | ListProvisionWatchers

  /** How a single profile is located: by its id or by its name. */
  datatype Selector = ById(id: string) | ByName(name: string)

  /** The listing filters: by labels (no labels means every profile), by model,
      by manufacturer, and by both. */
  datatype Filter =
    | WithLabels(labels: seq<string>)
    | WithModel(model: string)
    | WithManufacturer(manufacturer: string)
    | WithManufacturerAndModel(manufacturer: string, model: string)

  datatype Store = Store(
    profiles: seq<DeviceProfile>,
    devices: seq<Reference>,
    watchers: seq<Reference>,
    failing: set<Op>)

  /** Profile names and ids are unique keys of the store. */
  predicate WellFormed(s: Store) {
    forall i, j :: 0 <= i < j < |s.profiles| ==>
      s.profiles[i].name != s.profiles[j].name && s.profiles[i].id != s.profiles[j].id
  }

  /** The error a failing backend operation reports; its message names the
      operation. */
  function OpFailure(op: Op): (e: Error)
    ensures KindOf(e) == DatabaseError
  {
    Raise(DatabaseError, match op
      case AddProfile => "AddDeviceProfile failed"
      case UpdateProfile => "UpdateDeviceProfile failed"
      case ProfileById => "DeviceProfileById failed"
      case ProfileByName => "DeviceProfileByName failed"
      case DeleteProfile => "DeleteDeviceProfileByName failed"
      case CountProfiles => "DeviceProfileCount failed"
      case ListProfiles => "DeviceProfiles failed"
      case CountDevices => "DeviceCountByProfileName failed"
      case ListDevices => "DevicesByProfileName failed"
      case ListProvisionWatchers => "ProvisionWatchersByProfileName failed")
  }

  /** Different failing operations report different errors, so an error passed
      up tells which backend call failed. */
  lemma OpFailureIdentifiesOp(a: Op, b: Op)
    ensures OpFailure(a) == OpFailure(b) ==> a == b
  {
  }

  predicate Selects(sel: Selector, p: DeviceProfile) {
    match sel
    case ById(id) => p.id == id
    case ByName(name) => p.name == name
  }

  /** Some stored profile is selected by `sel`. */
  predicate Has(s: Store, sel: Selector) {
    exists i :: 0 <= i < |s.profiles| && Selects(sel, s.profiles[i])
  }

  function SelectedBy(sel: Selector): DeviceProfile -> bool {
    p => Selects(sel, p)
  }

  /** The position of the first profile `sel` selects, if any. */
  function IndexOf(rows: seq<DeviceProfile>, sel: Selector): (r: Option<nat>)
    ensures r.Some? ==> r.value < |rows| && Selects(sel, rows[r.value])
    ensures r.Some? ==> forall j :: 0 <= j < r.value ==> !Selects(sel, rows[j])
    ensures r.None? <==> forall j :: 0 <= j < |rows| ==> !Selects(sel, rows[j])
  {
    FirstWhere(rows, SelectedBy(sel))
  }

  function LookupOp(sel: Selector): Op {
    match sel
    case ById(_) => ProfileById
    case ByName(_) => ProfileByName
  }

  /** Fetching one profile (`DeviceProfileById` / `DeviceProfileByName`). */
  function Fetch(s: Store, sel: Selector): (r: Result<DeviceProfile>)
    ensures r.Ok? <==> LookupOp(sel) !in s.failing && Has(s, sel)
    ensures r.Ok? ==> r.value in s.profiles && Selects(sel, r.value)
    ensures r.Err? && LookupOp(sel) !in s.failing ==> KindOf(r.error) == EntityDoesNotExist
  {
    if LookupOp(sel) in s.failing then Err(OpFailure(LookupOp(sel)))
    else
      match IndexOf(s.profiles, sel)
      case None => Err(Raise(EntityDoesNotExist, "device profile does not exist"))
      case Some(i) => Ok(s.profiles[i])
  }

  /** Inserting a new profile under an id the backend generated. A name or id
      already in use is refused. On success the stored profile is returned along
      with the next snapshot. */
  function Insert(s: Store, p: DeviceProfile, freshId: string): (r: Result<(DeviceProfile, Store)>)
    ensures r.Ok? <==> AddProfile !in s.failing && !Has(s, ByName(p.name)) && !Has(s, ById(freshId))
    ensures r.Ok? ==> r.value.0 == p.(id := freshId)
    ensures r.Ok? ==> r.value.1 == s.(profiles := s.profiles + [p.(id := freshId)])
    ensures r.Err? && AddProfile !in s.failing ==> KindOf(r.error) == DuplicateName
  {
    if AddProfile in s.failing then Err(OpFailure(AddProfile))
    else if IndexOf(s.profiles, ByName(p.name)).Some? then Err(Raise(DuplicateName, "device profile name exists"))
    else if IndexOf(s.profiles, ById(freshId)).Some? then Err(Raise(DuplicateName, "device profile id exists"))
    else
      var stored := p.(id := freshId);
      Ok((stored, s.(profiles := s.profiles + [stored])))
  }

  /** Replacing the profile of the same name; the stored id is kept. */
  function Replace(s: Store, p: DeviceProfile): (r: Result<Store>)
    ensures r.Ok? <==> UpdateProfile !in s.failing && Has(s, ByName(p.name))
    ensures r.Ok? ==>
      var i := IndexOf(s.profiles, ByName(p.name)).value;
      r.value == s.(profiles := s.profiles[i := p.(id := s.profiles[i].id)])
    ensures r.Err? && UpdateProfile !in s.failing ==> KindOf(r.error) == EntityDoesNotExist
  {
    if UpdateProfile in s.failing then Err(OpFailure(UpdateProfile))
    else
      match IndexOf(s.profiles, ByName(p.name))
      case None => Err(Raise(EntityDoesNotExist, "device profile does not exist"))
      case Some(i) => Ok(s.(profiles := s.profiles[i := p.(id := s.profiles[i].id)]))
  }

  /** Deleting the profile of the given name. */
  function Remove(s: Store, name: string): (r: Result<Store>)
    ensures r.Ok? <==> DeleteProfile !in s.failing && Has(s, ByName(name))
    ensures r.Ok? ==>
      var i := IndexOf(s.profiles, ByName(name)).value;
      r.value == s.(profiles := s.profiles[..i] + s.profiles[i + 1..])
    ensures r.Err? && DeleteProfile !in s.failing ==> KindOf(r.error) == EntityDoesNotExist
  {
    if DeleteProfile in s.failing then Err(OpFailure(DeleteProfile))
    else
      match IndexOf(s.profiles, ByName(name))
      case None => Err(Raise(EntityDoesNotExist, "device profile does not exist"))
      case Some(i) => Ok(s.(profiles := s.profiles[..i] + s.profiles[i + 1..]))
  }

  predicate Matches(p: DeviceProfile, f: Filter) {
    match f
    case WithLabels(ls) => |ls| == 0 || exists i :: 0 <= i < |ls| && ls[i] in p.labels
    case WithModel(m) => p.model == m
    case WithManufacturer(m) => p.manufacturer == m
    case WithManufacturerAndModel(mf, m) => p.manufacturer == mf && p.model == m
  }

  /** The stored profiles a filter selects, in store order. */
  function Matching(s: Store, f: Filter): seq<DeviceProfile> {
    KeepIf(s.profiles, MatchesFilter(f))
  }

  function MatchesFilter(f: Filter): DeviceProfile -> bool {
    p => Matches(p, f)
  }

  /** Counting the profiles a filter selects. */
  function Count(s: Store, f: Filter): Result<nat> {
    if CountProfiles in s.failing then Err(OpFailure(CountProfiles))
    else Ok(|Matching(s, f)|)
  }

  /** Listing one page of the profiles a filter selects. */
  function List(s: Store, offset: int, limit: int, f: Filter): Result<seq<DeviceProfile>> {
    if ListProfiles in s.failing then Err(OpFailure(ListProfiles))
    else Ok(Window(Matching(s, f), offset, limit))
  }

  /** Some reference in `refs` names the profile. */
  predicate Referenced(refs: seq<Reference>, name: string) {
    exists i :: 0 <= i < |refs| && refs[i].profileName == name
  }

  /** The references in `refs` to the named profile. */
  function Referencing(refs: seq<Reference>, name: string): seq<Reference> {
    KeepIf(refs, (r: Reference) => r.profileName == name)
  }

  /** Counting the devices of a profile (`DeviceCountByProfileName`). */
  function DeviceCountByProfileName(s: Store, name: string): Result<nat> {
    if CountDevices in s.failing then Err(OpFailure(CountDevices))
    else Ok(|Referencing(s.devices, name)|)
  }

  /** One page of the devices of a profile (`DevicesByProfileName`). */
  function DevicesByProfileName(s: Store, offset: int, limit: int, name: string): Result<seq<Reference>> {
    if ListDevices in s.failing then Err(OpFailure(ListDevices))
    else Ok(Window(Referencing(s.devices, name), offset, limit))
  }

  /** One page of the provision watchers of a profile
      (`ProvisionWatchersByProfileName`). */
  function ProvisionWatchersByProfileName(s: Store, offset: int, limit: int, name: string): Result<seq<Reference>> {
    if ListProvisionWatchers in s.failing then Err(OpFailure(ListProvisionWatchers))
    else Ok(Window(Referencing(s.watchers, name), offset, limit))
  }

  /** Some reference exists exactly when the references filtered by profile are
      non-empty. */
  lemma ReferencingNonEmpty(refs: seq<Reference>, name: string)
    ensures |Referencing(refs, name)| > 0 <==> Referenced(refs, name)
  {
    var r := Referencing(refs, name);
    if |r| > 0 {
      var i :| 0 <= i < |refs| && refs[i] == r[0];
    }
    if Referenced(refs, name) {
      var i :| 0 <= i < |refs| && refs[i].profileName == name;
      assert refs[i] in r;
    }
  }

  /** The one-row existence probe the delete guard makes (offset 0, limit 1)
      finds a row exactly when some reference names the profile. */
  lemma ProbeFindsReference(refs: seq<Reference>, name: string)
    ensures |Window(Referencing(refs, name), 0, 1)| > 0 <==> Referenced(refs, name)
  {
    ReferencingNonEmpty(refs, name);
  }

  /** Appending a row that `sel` selects to rows it selected none of makes that
      row the first one selected. */
  lemma IndexOfAppend(rows: seq<DeviceProfile>, x: DeviceProfile, sel: Selector)
    requires IndexOf(rows, sel).None? && Selects(sel, x)
    ensures IndexOf(rows + [x], sel) == Some(|rows|)
  {
    var all := rows + [x];
    assert all[|rows|] == x;
    assert forall j :: 0 <= j < |rows| ==> all[j] == rows[j];
  }

  /** The set of stored profiles a filter selects. */
  ghost function MatchingSet(s: Store, f: Filter): set<DeviceProfile> {
    set p | p in s.profiles && Matches(p, f)
  }

  /** Rows of a well-formed store are pairwise distinct. */
  lemma WellFormedDistinct(s: Store)
    requires WellFormed(s)
    ensures forall i, j :: 0 <= i < j < |s.profiles| ==> s.profiles[i] != s.profiles[j]
  {
  }

  /** In a well-formed store the number of profiles a filter selects is the
      number of distinct stored profiles that match it. */
  lemma MatchingCount(s: Store, f: Filter)
    requires WellFormed(s)
    ensures |Matching(s, f)| == |MatchingSet(s, f)|
  {
    WellFormedDistinct(s);
    KeepIfCardinality(s.profiles, MatchesFilter(f));
    assert Accepted(s.profiles, MatchesFilter(f)) == MatchingSet(s, f);
  }
}

=== FILE: uom.dfy ===
/** Unit-of-measure validation of a profile's device resources
    (`deviceProfileUoMValidation`). The validator itself is a collaborator the
    model does not see: it is passed in as a predicate on unit strings. */
module UnitsOfMeasure {
  import opened Errors
  import opened Models
  import opened Sequences

  /** Reference definition: a profile's units are acceptable when validation is
      switched off, or when the validator accepts every resource's unit. */
  predicate UnitsAcceptable(validation: bool, valid: string -> bool, p: DeviceProfile) {
    !validation ||
    forall i :: 0 <= i < |p.deviceResources| ==> valid(p.deviceResources[i].units)
  }

  function RejectedBy(valid: string -> bool): DeviceResource -> bool {
    (r: DeviceResource) => !valid(r.units)
  }

  /** The position of the first resource whose unit the validator rejects. */
  function FirstInvalidUnit(rs: seq<DeviceResource>, valid: string -> bool): (r: Option<nat>)
    ensures r.Some? ==> r.value < |rs| && !valid(rs[r.value].units)
    ensures r.Some? ==> forall j :: 0 <= j < r.value ==> valid(rs[j].units)
    ensures r.None? <==> forall j :: 0 <= j < |rs| ==> valid(rs[j].units)
  {
    FirstWhere(rs, RejectedBy(valid))
  }

  function InvalidUnitsMessage(r: DeviceResource): string {
    "DeviceResource " + r.name + " units " + r.units + " is invalid"
  }

  /** With validation on, the first resource in order whose unit is rejected
      fails the profile with a ContractInvalid error naming that resource; with
      validation off, or with every unit accepted, there is no error. */
  function DeviceProfileUoMValidation(validation: bool, valid: string -> bool, p: DeviceProfile): (r: Option<Error>)
    ensures r.None? <==> UnitsAcceptable(validation, valid, p)
    ensures r.Some? ==>
      KindOf(r.value) == ContractInvalid &&
      exists i :: 0 <= i < |p.deviceResources| &&
        !valid(p.deviceResources[i].units) &&
        (forall j :: 0 <= j < i ==> valid(p.deviceResources[j].units)) &&
        r.value == Raise(ContractInvalid, InvalidUnitsMessage(p.deviceResources[i]))
  {
    if !validation then None
    else
      match FirstInvalidUnit(p.deviceResources, valid)
      case None => None
      case Some(i) => Some(Raise(ContractInvalid, InvalidUnitsMessage(p.deviceResources[i])))
  }
}
